=== FILE: README.md ===
# Tree-view bookkeeping of the VTK visualisation page

The home page of this VTK visualisation front end shows a rooted tree. Each
point has a scalar height, and points are joined by line segments. A
right-click on a point collapses or expands its subtree. A search over an
open height interval `(low, high)` keeps the matching points and their
common root path, and a reset button restores the loaded view. Without the
rendering calls, the page is a set of pure transformations over integer
lists:

- `generateGraph` turns the decoded edge list into an N×N 0/1 adjacency
  matrix, where N is the number of heights.
- The mesh's flat line buffer `[2, a, b, 2, c, d, …]` holds the visible
  edges. The page decodes it at load time.
  - The collapse branch filters this buffer.
  - The expand branch appends to it.
  - The search rebuilds it from the pristine copy.
- The session keeps:
  - the list of collapsed roots;
  - the memoised child list of every root collapsed so far (since the last
    reset; expanding a root or searching does not forget it);
  - the list of displayed ids;
  - one colour class per point.

The model has five modules:

- `Seqs` holds generic sequence facts: order-preserving subsequence,
  first-occurrence index, duplicate-free first-occurrence list, and removal
  and keep filters with multiset contracts.
- `EdgeBuffer` holds the triplet buffer: `Line`, `Parse`/`Flatten` and their
  round trips. It also holds the collapse filter, the expand append and the
  range rebuild, with contracts over parsed triplets (alignment,
  order-preserving subsequence, exact multiplicities) and lemmas about which
  pairs end up joined.
- `Graphs` holds the load-time decode and `generateGraph` (a loop method with
  invariants).
- `Controller` holds the session state and the transitions: `Collapse`,
  `Expand`, `Toggle`, `Search`, `Reset`. It also holds the consistency
  invariant and `Apply`/`Run` over a sequence of user events.
- `ControllerProperties` holds lemmas that relate several transitions.

`Graph.bfs` and `Graph.getCommonRootPath` live in a file this model does not
include. Their results are parameters: `tree` (the breadth-first tree edges
for the clicked id) and `keep` (the root-path id list for the search
targets). Heights and search bounds are `real` and are only compared.

## Model

| member | source | states |
|---|---|---|
| Graphs.Decode | src/pages/Home/Home.js:198-205 | a buffer of length L yields (L+1)/3 edges; edge t is `(buf[3t+1], buf[3t+2])`, or the one-element edge `[buf[3t+1]]` when the buffer ends two past a multiple of 3 |
| Graphs.DecodeIgnoresPrefix | src/pages/Home/Home.js:198-205 | buffers that differ only at positions `index % 3 == 0` decode to the same edges: the count prefix is ignored |
| Graphs.DecodeAligned | src/pages/Home/Home.js:198-205 | on a buffer whose length is a multiple of 3, the decoded edges are exactly the endpoint pairs of its triplets, one per triplet |
| Graphs.GenerateGraph | src/pages/Home/Home.js:21-40 | the matrix is N×N with N = number of heights; cell `[i][j]` is 1 iff some edge is `(i,j)` or `(j,i)`, else 0; the matrix is symmetric; node and edge counts are the list lengths |
| Graphs.LoadGraph | src/pages/Home/Home.js:189-207 | on an aligned loaded buffer, cell `[i][j]` is 1 exactly when some triplet of the buffer joins i and j; the matrix is symmetric |
| Graphs.LinkedIffInTree | src/pages/Home/Home.js:29-35 | a matrix cell is set by the decoded edge list exactly when some triplet of the aligned buffer joins the two ids, in either orientation |
| EdgeBuffer.Parse | src/pages/Home/Home.js:113-115 | the scan at `index % 3 === 0` yields one triplet per complete group of three, in order: triplet t is `(buf[3t], buf[3t+1], buf[3t+2])`; a trailing partial group yields none |
| EdgeBuffer.ParseFlatten | src/pages/Home/Home.js:113-127 | writing triplets out as a flat buffer and scanning it at `index % 3 == 0` gives back the same triplets |
| EdgeBuffer.FlattenParse | src/pages/Home/Home.js:113-127 | a buffer whose length is a multiple of 3 is exactly the concatenation of its triplets |
| EdgeBuffer.ParseAppend | src/pages/Home/Home.js:84-89 | appending to an aligned buffer appends triplets: the old triplets stay a prefix of the new ones |
| EdgeBuffer.CollapseFilter | src/pages/Home/Home.js:113-127 | the result is aligned and its triplets are an order-preserving subsequence of the old buffer's, each with its original prefix; a triplet is kept, with its full multiplicity, iff its pair matches no tree edge in either orientation and both endpoints are displayed; a trailing partial triplet is dropped |
| EdgeBuffer.CollapsedEdges | src/pages/Home/Home.js:113-127 | on a buffer whose endpoints are all displayed, two ids are joined after the collapse iff they were joined before and no tree edge joins them |
| EdgeBuffer.ExpandEdges | src/pages/Home/Home.js:84-89 | the appended part is aligned; every triplet has prefix 2; its pairs are the tree edges whose endpoints are both displayed, in tree order and with their multiplicities |
| EdgeBuffer.ExpandedEdges | src/pages/Home/Home.js:84-89 | the appended part joins two ids iff a tree edge joins them and both are displayed |
| EdgeBuffer.RangeRebuild | src/pages/Home/Home.js:377-387 | the rebuilt buffer is aligned; every triplet has prefix 2 and both endpoints in the keep list; its pairs are the pristine buffer's pairs with both endpoints kept, in buffer order and with their multiplicities |
| Seqs.FirstOccurrences | src/pages/Home/Home.js:130-140 | the accumulated list has no duplicates, holds exactly the elements other than the skipped id, and orders them by first occurrence |
| Seqs.Remove | src/pages/Home/Home.js:83 | the filtered collapsed list no longer holds the id, is an order-preserving subsequence of the old list, and keeps every other entry with its multiplicity |
| Seqs.KeepIn | src/pages/Home/Home.js:90-104 | the children whose markers are recreated are the memoised children that are displayed, in memoised order and with their multiplicities |
| Controller.Initial | src/pages/Home/Home.js:189-228 | after loading, the current and pristine buffers are the loaded buffer; nothing is collapsed and no child list is memoised; the displayed list is `[0, 1, …, N-1]`; every point stores colour code 0 |
| Controller.VisibleAfter | src/pages/Home/Home.js:60-63 | `judgeValidity` lets a node through iff it is in the displayed list; a right-click leaves that answer unchanged for every node, after a search it holds exactly for the kept ids, and after a reset exactly for the ids 0..N-1 |
| Controller.ChildSet | src/pages/Home/Home.js:128-141 | the memoised child list holds every endpoint of every tree edge except the clicked id, has no duplicates, and follows first-occurrence order over the edges' endpoints |
| Controller.Collapse | src/pages/Home/Home.js:106-147 | the id is appended to the collapsed list; the child list is built only when none is memoised for the id, and existing entries are never overwritten; the removed markers are the memoised children; the displayed list and colours are untouched |
| Controller.Expand | src/pages/Home/Home.js:79-105 | every occurrence of the id leaves the collapsed list; the old buffer is a prefix of the new one; the memoised child lists are read, not changed |
| Controller.Toggle | src/pages/Home/Home.js:79 | a click flips the clicked id's membership in the collapsed list, by membership test, and leaves every other id's membership unchanged |
| Controller.Targets | src/pages/Home/Home.js:365-369 | the targets are exactly the ids whose height lies strictly between the bounds, in ascending order; `low >= high` gives none |
| Controller.Recolor | src/pages/Home/Home.js:390-409 | a kept point is in range iff it is a target and normal otherwise, so its stored colour code is 1 for a target and 0 otherwise; a point that is not kept keeps its previous class |
| Controller.Search | src/pages/Home/Home.js:352-412 | the search empties the collapsed list; the keep list becomes the displayed list; the buffer is rebuilt from the pristine one; a kept point is in range, with stored colour code 1, iff its height is strictly inside the bounds, and has code 0 otherwise |
| Controller.Reset | src/pages/Home/Home.js:307-337 | reset empties the collapsed list and the memoised child lists, restores the pristine buffer, makes the displayed list `[0, 1, …, N-1]` and stores colour code 0 for every point |
| Controller.ToggleConsistent | src/pages/Home/Home.js:79-148 | a click whose breadth-first tree is made of graph edges keeps the session consistent: every collapsed root has a child list, every triplet's endpoints are displayed, and every on-screen pair is an edge of the loaded graph |
| Controller.ToggleOnGraph | src/pages/Home/Home.js:84-127 | when the breadth-first tree is made of graph edges, every pair on screen after a collapse or an expand is joined in the pristine buffer, i.e. is a 1 in the adjacency matrix |
| Controller.SearchOnGraph | src/pages/Home/Home.js:377-387 | every pair on screen after a search is joined in the pristine buffer, i.e. is a 1 in the adjacency matrix |
| Controller.Apply | src/pages/Home/Home.js:242-445 | one right-click, search or reset, dispatched to its handler, needs only a child list for every collapsed root and keeps that property; when a click's breadth-first tree is made of graph edges, it also takes a consistent session to a consistent one; heights and pristine buffer are unchanged |
| Controller.Run | src/pages/Home/Home.js:242-445 | any sequence of clicks, searches and resets keeps a child list for every collapsed root; when every click's breadth-first tree is made of graph edges it keeps a consistent session consistent; heights and pristine buffer are unchanged |
| ControllerProperties.ToggleTwice | src/pages/Home/Home.js:79-146 | the first click on an id that is not collapsed appends it; the second click takes the expand branch, restores the collapsed list exactly, keeps the memoised child list, and recreates the displayed ones among the markers the first click removed |
| ControllerProperties.ToggleTwiceEdges | src/pages/Home/Home.js:84-127 | after a collapse and an expand of the same id, two ids are joined iff they were joined before and no tree edge joins them, or a tree edge joins them and both are displayed |
| ControllerProperties.ToggleTwiceRestoresEdges | src/pages/Home/Home.js:84-127 | if every displayed tree edge was on screen before the collapse, collapse then expand restores the set of joined pairs |
| ControllerProperties.InitialConsistent | src/pages/Home/Home.js:189-195 | the loaded session is consistent when the loaded buffer is aligned and names only existing points; in particular every on-screen pair is a graph edge |
| ControllerProperties.ReachableMemoised | src/pages/Home/Home.js:79-90 | for any loaded buffer, in every session reachable from loading, each collapsed root has a memoised child list, so the expand branch's read of `sonNodeMap[id]` always finds one |
| ControllerProperties.ReachableConsistent | src/pages/Home/Home.js:79-148 | after loading an aligned buffer whose ids are below N, and with every click's breadth-first tree made of graph edges, every reachable session is consistent: every triplet's endpoints are displayed and every on-screen pair is a 1 in the adjacency matrix |
| ControllerProperties.SearchIgnoresHistory | src/pages/Home/Home.js:362-387 | the buffer, displayed list and collapsed list a search produces do not depend on any earlier click, search or reset |
| ControllerProperties.ResetIdempotent | src/pages/Home/Home.js:307-337 | applying reset twice gives the same session as applying it once |
| ControllerProperties.ResetForgetsHistory | src/pages/Home/Home.js:307-337 | reset after any sequence of actions gives the session the page had right after loading |

## Left out

- VTK objects and calls are left out: actors, mappers, sphere sources, the
  renderer, the picker, the render window, and the swap to a new mesh actor.
  They are foreign rendering calls. Only which ids get a marker created or
  removed on a click is modelled (`Step.created`, `Step.removed`). After a
  search or reset, the page rebuilds a marker for every displayed id; that
  follows from the displayed list and is not a separate output.
- Mesh loading through `vtkPolyDataReader` and the HTTP request for the
  heights are asynchronous I/O. The loaded buffer and heights are parameters
  of `Initial` and `LoadGraph`.
- The internals of `Graph.bfs` and `Graph.getCommonRootPath` are not in this
  model. Their results are the `tree` and `keep` parameters. The model
  therefore does not prove that the kept ids form a connected subtree
  containing the root, or that the breadth-first search visits each id once.
  That every edge of the breadth-first tree is an edge of the loaded graph
  is taken as a hypothesis (`TreeOnGraph`, `Grounded`) of the consistency
  results, not proved.
- React hooks, refs, JSX and the input fields are left out. This includes
  clearing the two input fields on reset and JavaScript's coercion of the
  input strings to numbers. Bounds and heights are taken as given `real`s.
- `deepClone` is a value copy.
- The debug `global.highlight` helper and the `console.log` calls are left
  out.
- The mesh's point count (`polydata.getNumberOfPoints()`, the bound of the
  marker and colour loops at Home.js:217-228, 323-336 and 390-412) is taken
  to equal the number of heights. The model uses the number of heights for
  the colour list, the displayed list and the consistency invariant.
- The RGB values of `colorMap` (Home.js:17-20) are only passed to paint
  calls. The model keeps the colour class and its stored code (`Code`).
- Ids are unbounded integers. The typed-array width of the VTK line buffer is
  not modelled because no operation here does arithmetic on ids.

## Notes on the source

- An edge id at or above the point count is not rejected: `generateGraph`
  sets no cell for it (Home.js:25-36), so `GenerateGraph` has no
  precondition. The consistency invariant (`Consistent`) assumes the loaded
  buffer is aligned and names only existing points (`Wired`). The event
  model itself (`Apply`, `Run`) demands only a child list for every
  collapsed root, which holds after any load.
- `collapseLines` never asks `judgeValidity` about the clicked id
  (Home.js:79-110). A right-click on a point that is not displayed collapses
  or expands like any other, and `Toggle` follows the code.
- Reset also forgets every memoised child list (line 311). A search does not.
- Collapsing and then expanding the same id does not restore the buffer
  sequence. The expanded triplets go at the end, take the tree's
  orientation, and take prefix 2. What is restored is the set of joined
  pairs (`ToggleTwiceRestoresEdges`), and only when every displayed tree
  edge was on screen before the collapse.
- Nested collapses break that hypothesis. On the tree 0-1-2, collapse 1,
  then collapse 0, then expand 0: node 1 is still in the collapsed list,
  yet the edge (1,2) is back on screen. Expanding 1 then appends the
  triplet `(2, 1, 2)` a second time.
- The collapse filter also drops every triplet with an undisplayed endpoint,
  not only the subtree's edges.
- A search leaves the colour class of a point that is not kept unchanged.
- A trailing partial triplet reads `undefined` endpoints. The collapse filter
  and the range rebuild drop it. Decoding turns a two-element tail into a
  one-element edge that sets no matrix cell.

=== FILE: controller.dfy ===
/** The page's session bookkeeping: which ids are displayed, which subtree
    roots are collapsed, the memoised child lists, the per-node colour
    classes and the current line buffer, together with the three user
    actions that rewrite them (a right-click on a node, the search button
    and the reset button). The graph's breadth-first search and its
    common-root-path query are outside this model: their results arrive as
    the `tree` and `keep` arguments. */
module Controller {
  import opened Seqs
  import opened EdgeBuffer

  /** The two keys of the page's colour map. */
  datatype ColorClass = Normal | InRange
  {
    /** The key the page stores for a node of this class. */
    function Code(): int
    {
      match this
      case Normal => 0
      case InRange => 1
    }
  }

  /** Everything the page keeps between user actions.
      `backup` is the pristine buffer as loaded; `lines` the one on screen;
      `closed` the collapsed roots, in click order; `sons` the memoised child
      list of every root collapsed so far; `displayed` the ids that may be
      drawn; `colors` one class per node. */
  datatype Session = Session(
    heights: seq<real>,
    backup: seq<int>,
    lines: seq<int>,
    closed: seq<int>,
    sons: map<int, seq<int>>,
    displayed: seq<int>,
    colors: seq<ColorClass>)

  /** What one right-click changes on screen besides the session: the ids
      whose marker is (re)created and those whose marker is removed. */
  datatype Step = Step(next: Session, created: seq<int>, removed: seq<int>)

  /** `heightList.map((v, i) => i)`. */
  function AllIds(n: nat): (ids: seq<int>)
    ensures |ids| == n
    ensures forall i :: 0 <= i < n ==> ids[i] == i
    ensures forall i :: i in ids <==> 0 <= i < n
  {
    var ids := seq(n, i => i);
    forall i | 0 <= i < n
      ensures i in ids
    {
      assert ids[i] == i;
    }
    assert forall i :: i in ids ==> 0 <= i < n by {
      forall i | i in ids
        ensures 0 <= i < n
      {
        var k :| 0 <= k < n && ids[k] == i;
      }
    }
    ids
  }

  function AllNormal(n: nat): (cs: seq<ColorClass>)
    ensures |cs| == n
    ensures forall i :: 0 <= i < n ==> cs[i] == Normal
  {
    seq(n, _ => Normal)
  }

  /** The session right after loading: both buffers are the loaded one,
      nothing is collapsed, every id is displayed and every node is normal. */
  function Initial(heights: seq<real>, buf: seq<int>): (s: Session)
    ensures s.heights == heights && s.backup == buf && s.lines == buf
    ensures s.closed == [] && s.sons == map[]
    ensures |s.displayed| == |heights| && forall i :: 0 <= i < |heights| ==> s.displayed[i] == i
    ensures forall id :: id in s.displayed <==> 0 <= id < |heights|
    ensures |s.colors| == |heights| && forall i :: 0 <= i < |heights| ==> s.colors[i].Code() == 0
  {
    Session(heights, buf, buf, [], map[], AllIds(|heights|), AllNormal(|heights|))
  }

  /** `judgeValidity`: a node may be drawn iff it is in the displayed list. */
  predicate Visible(s: Session, id: int)
  {
    id in s.displayed
  }

  /** Both endpoints of every tree edge, in tree order. */
  function Endpoints(tree: seq<TreeEdge>): (ps: seq<int>)
    ensures |ps| == 2 * |tree|
    ensures forall k :: 0 <= k < |tree| ==> ps[2 * k] == tree[k].0 && ps[2 * k + 1] == tree[k].1
  {
    if |tree| == 0 then [] else [tree[0].0, tree[0].1] + Endpoints(tree[1..])
  }

  /** `x` is an endpoint of some edge of the tree. */
  predicate Touches(tree: seq<TreeEdge>, x: int)
  {
    exists e :: e in tree && (e.0 == x || e.1 == x)
  }

  lemma {:induction false} EndpointsMembers(tree: seq<TreeEdge>, x: int)
    ensures x in Endpoints(tree) <==> Touches(tree, x)
  {
    if |tree| > 0 {
      EndpointsMembers(tree[1..], x);
      assert Endpoints(tree) == [tree[0].0, tree[0].1] + Endpoints(tree[1..]);
      assert tree == [tree[0]] + tree[1..];
      if Touches(tree[1..], x) {
        var e :| e in tree[1..] && (e.0 == x || e.1 == x);
        assert e in tree;
      }
      if Touches(tree, x) && tree[0].0 != x && tree[0].1 != x {
        var e :| e in tree && (e.0 == x || e.1 == x);
        assert e in tree[1..];
      }
    }
  }

  /** The child list memoised on a node's first collapse: every endpoint of
      every tree edge except the node itself, each once, in the order of its
      first appearance. */
  function ChildSet(tree: seq<TreeEdge>, id: int): (r: seq<int>)
    ensures Distinct(r)
    ensures forall x :: x in r <==> x != id && Touches(tree, x)
    ensures forall x :: x in r ==> x in Endpoints(tree)
    ensures forall i, j :: 0 <= i < j < |r| ==>
      IndexOf(Endpoints(tree), r[i]) < IndexOf(Endpoints(tree), r[j])
  {
    var r := FirstOccurrences(Endpoints(tree), id);
    assert forall x :: x in r <==> x != id && Touches(tree, x) by {
      forall x
        ensures x in r <==> x != id && Touches(tree, x)
      {
        EndpointsMembers(tree, x);
      }
    }
    r
  }

  /** Collapse `id`: record it as collapsed, drop the subtree's edges from
      the buffer, memoise its child list if it has none yet, and remove the
      markers of those children. */
  function Collapse(s: Session, id: int, tree: seq<TreeEdge>): (st: Step)
    ensures st.next.closed == s.closed + [id]
    ensures st.next.lines == CollapseFilter(s.lines, tree, s.displayed)
    ensures st.next.sons.Keys == s.sons.Keys + {id}
    ensures forall x :: x in s.sons ==> st.next.sons[x] == s.sons[x]
    ensures id !in s.sons ==> st.next.sons[id] == ChildSet(tree, id)
    ensures st.created == [] && st.removed == st.next.sons[id]
    ensures st.next.heights == s.heights && st.next.backup == s.backup
    ensures st.next.displayed == s.displayed && st.next.colors == s.colors
  {
    var sons := if id in s.sons then s.sons else s.sons[id := ChildSet(tree, id)];
    var next := s.(closed := s.closed + [id], lines := CollapseFilter(s.lines, tree, s.displayed), sons := sons);
    Step(next, [], sons[id])
  }

  /** Expand `id`: forget every occurrence of it among the collapsed roots,
      append the subtree's displayed edges to the buffer, and recreate the
      markers of its displayed children. The child list is read, not
      rebuilt, so it must exist. */
  function Expand(s: Session, id: int, tree: seq<TreeEdge>): (st: Step)
    requires id in s.sons
    ensures st.next.closed == Remove(s.closed, id)
    ensures st.next.lines == s.lines + ExpandEdges(tree, s.displayed)
    ensures st.created == KeepIn(s.sons[id], s.displayed) && st.removed == []
    ensures st.next.sons == s.sons
    ensures st.next.heights == s.heights && st.next.backup == s.backup
    ensures st.next.displayed == s.displayed && st.next.colors == s.colors
  {
    var next := s.(closed := Remove(s.closed, id), lines := s.lines + ExpandEdges(tree, s.displayed));
    Step(next, KeepIn(s.sons[id], s.displayed), [])
  }

  /** A right-click on `id`: expand if it is among the collapsed roots,
      collapse otherwise. The click flips `id`'s membership and no other. */
  function Toggle(s: Session, id: int, tree: seq<TreeEdge>): (st: Step)
    requires id in s.closed ==> id in s.sons
    ensures id in st.next.closed <==> id !in s.closed
    ensures forall x :: x != id ==> (x in st.next.closed <==> x in s.closed)
    ensures id in st.next.sons && s.sons.Keys <= st.next.sons.Keys
    ensures st.next.heights == s.heights && st.next.backup == s.backup
    ensures st.next.displayed == s.displayed && st.next.colors == s.colors
  {
    if id in s.closed then
      var st := Expand(s, id, tree);
      assert forall x :: x != id ==> (x in st.next.closed <==> x in s.closed) by {
        forall x | x != id
          ensures x in st.next.closed <==> x in s.closed
        {
          assert multiset(st.next.closed)[x] == multiset(s.closed)[x];
        }
      }
      st
    else
      Collapse(s, id, tree)
  }

  /** The ids whose height lies strictly between the bounds, ascending. */
  function Targets(heights: seq<real>, low: real, high: real): (r: seq<int>)
    ensures forall i :: i in r <==> 0 <= i < |heights| && low < heights[i] < high
    ensures forall i, j :: 0 <= i < j < |r| ==> r[i] < r[j]
    ensures low >= high ==> r == []
    decreases |heights|
  {
    if |heights| == 0 then []
    else
      var n := |heights| - 1;
      var prev := Targets(heights[..n], low, high);
      assert forall k :: 0 <= k < |prev| ==> prev[k] in prev;
      if low < heights[n] < high then prev + [n] else prev
  }

  /** The colour classes after a search: a kept node is in range iff it is a
      target; the class of a node that is not kept is left as it was. */
  function Recolor(colors: seq<ColorClass>, keep: seq<int>, targets: seq<int>): (cs: seq<ColorClass>)
    ensures |cs| == |colors|
    ensures forall i :: 0 <= i < |colors| && i in keep ==> (cs[i] == InRange <==> i in targets)
    ensures forall i :: 0 <= i < |colors| && i in keep ==> (cs[i] == Normal <==> i !in targets)
    ensures forall i :: 0 <= i < |colors| && i in keep ==> cs[i].Code() == if i in targets then 1 else 0
    ensures forall i :: 0 <= i < |colors| && i !in keep ==> cs[i] == colors[i]
  {
    seq(|colors|, i requires 0 <= i < |colors| =>
      if i in keep then (if i in targets then InRange else Normal) else colors[i])
  }

  /** The search button: nothing stays collapsed, the common-root-path ids
      `keep` become the displayed list, the buffer is rebuilt from the
      pristine one, and the kept nodes are coloured by the height test. */
  function Search(s: Session, low: real, high: real, keep: seq<int>): (s': Session)
    ensures s'.closed == []
    ensures s'.displayed == keep
    ensures s'.lines == RangeRebuild(s.backup, keep)
    ensures |s'.colors| == |s.colors|
    ensures forall i :: 0 <= i < |s.colors| && i < |s.heights| && i in keep ==>
      (s'.colors[i] == InRange <==> low < s.heights[i] < high)
    ensures forall i :: 0 <= i < |s.colors| && i < |s.heights| && i in keep ==>
      s'.colors[i].Code() == if low < s.heights[i] < high then 1 else 0
    ensures forall i :: 0 <= i < |s.colors| && i !in keep ==> s'.colors[i] == s.colors[i]
    ensures s'.sons == s.sons && s'.heights == s.heights && s'.backup == s.backup
  {
    var targets := Targets(s.heights, low, high);
    s.(closed := [], displayed := keep, lines := RangeRebuild(s.backup, keep),
       colors := Recolor(s.colors, keep, targets))
  }

  /** The reset button: the load-time bookkeeping again, and the memoised
      child lists forgotten. */
  function Reset(s: Session): (s': Session)
    ensures s'.closed == [] && s'.sons == map[]
    ensures s'.lines == s.backup
    ensures |s'.displayed| == |s.heights| && forall i :: 0 <= i < |s.heights| ==> s'.displayed[i] == i
    ensures forall id :: Visible(s', id) <==> 0 <= id < |s.heights|
    ensures |s'.colors| == |s.heights| && forall i :: 0 <= i < |s.heights| ==> s'.colors[i].Code() == 0
    ensures s'.heights == s.heights && s'.backup == s.backup
  {
    Initial(s.heights, s.backup)
  }

  /** One user action, with the results of the graph queries it triggers. */
  datatype Event =
    | Pick(id: int, tree: seq<TreeEdge>)
    | SearchClick(low: real, high: real, keep: seq<int>)
    | ResetClick

  /** The loaded buffer is aligned and names only nodes that exist. */
  predicate Wired(buf: seq<int>, n: int)
  {
    && Aligned(buf)
    && forall l :: l in Parse(buf) ==> 0 <= l.a < n && 0 <= l.b < n
  }

  /** Every collapsed root has a memoised child list: all that the expand
      branch needs, and what every session reachable from any load keeps. */
  predicate Memoised(s: Session)
  {
    forall x :: x in s.closed ==> x in s.sons
  }

  /** Every pair joined on screen is joined in the pristine buffer: a 1 in
      the adjacency matrix built at load time. */
  predicate OnGraph(s: Session)
  {
    forall l :: l in Parse(s.lines) ==> InTree(Ends(Parse(s.backup)), l.a, l.b)
  }

  /** Every edge the breadth-first search reports is an edge of the graph
      built from the pristine buffer. */
  predicate TreeOnGraph(tree: seq<TreeEdge>, backup: seq<int>)
  {
    forall t :: t in tree ==> InTree(Ends(Parse(backup)), t.0, t.1)
  }

  /** The graph query behind an event answers from the loaded graph. */
  predicate Grounded(e: Event, backup: seq<int>)
  {
    e.Pick? ==> TreeOnGraph(e.tree, backup)
  }

  /** What every session reachable from a well-formed load satisfies: one
      colour per node, a child list for every collapsed root, an aligned
      buffer whose endpoints are all displayed and whose pairs are all graph
      edges, and a well-formed pristine buffer. */
  predicate Consistent(s: Session)
  {
    && |s.colors| == |s.heights|
    && Memoised(s)
    && Aligned(s.lines)
    && (forall l :: l in Parse(s.lines) ==> l.a in s.displayed && l.b in s.displayed)
    && OnGraph(s)
    && Wired(s.backup, |s.heights|)
  }

  /** One user action dispatched to its handler. Only the child lists of
      the collapsed roots are demanded; consistency, where it holds, is
      kept. */
  function Apply(s: Session, e: Event): (s': Session)
    requires Memoised(s)
    ensures Memoised(s')
    ensures Consistent(s) && Grounded(e, s.backup) ==> Consistent(s')
    ensures s'.heights == s.heights && s'.backup == s.backup
  {
    match e
    case Pick(id, tree) =>
      var s' := Toggle(s, id, tree).next;
      if Consistent(s) && TreeOnGraph(tree, s.backup) then ToggleConsistent(s, id, tree); s' else s'
    case SearchClick(low, high, keep) => SearchOnGraph(s, low, high, keep); Search(s, low, high, keep)
    case ResetClick => BackupOnGraph(s.backup); Reset(s)
  }

  /** How each user action changes which nodes `judgeValidity` lets through:
      a right-click changes none, a search lets through exactly the kept
      ids, and a reset exactly the ids of the loaded nodes. */
  lemma VisibleAfter(s: Session, e: Event, id: int)
    requires Memoised(s)
    ensures e.Pick? ==> (Visible(Apply(s, e), id) <==> Visible(s, id))
    ensures e.SearchClick? ==> (Visible(Apply(s, e), id) <==> id in e.keep)
    ensures e.ResetClick? ==> (Visible(Apply(s, e), id) <==> 0 <= id < |s.heights|)
  {
  }

  /** A run of user actions from a consistent session. */
  function Run(s: Session, es: seq<Event>): (s': Session)
    requires Memoised(s)
    ensures Memoised(s')
    ensures Consistent(s) && (forall k :: 0 <= k < |es| ==> Grounded(es[k], s.backup)) ==> Consistent(s')
    ensures s'.heights == s.heights && s'.backup == s.backup
    decreases |es|
  {
    if |es| == 0 then s else Run(Apply(s, es[0]), es[1..])
  }

  lemma ToggleConsistent(s: Session, id: int, tree: seq<TreeEdge>)
    requires Consistent(s)
    requires TreeOnGraph(tree, s.backup)
    ensures Consistent(Toggle(s, id, tree).next)
  {
    var s' := Toggle(s, id, tree).next;
    ToggleOnGraph(s, id, tree);
    if id in s.closed {
      var e := ExpandEdges(tree, s.displayed);
      ParseAppend(s.lines, e);
      forall l | l in Parse(e)
        ensures l.a in s.displayed && l.b in s.displayed
      {
        var t :| 0 <= t < |Parse(e)| && Parse(e)[t] == l;
        assert Ends(Parse(e))[t] == (l.a, l.b);
        assert multiset(Ends(Parse(e)))[(l.a, l.b)] > 0;
      }
    } else {
      forall l | l in Parse(s'.lines)
        ensures l.a in s.displayed && l.b in s.displayed
      {
        assert multiset(Parse(s'.lines))[l] > 0;
      }
    }
  }

  /** A click keeps every on-screen pair a graph edge, provided the
      breadth-first tree is made of graph edges. */
  lemma ToggleOnGraph(s: Session, id: int, tree: seq<TreeEdge>)
    requires Aligned(s.lines) && OnGraph(s) && TreeOnGraph(tree, s.backup)
    requires id in s.closed ==> id in s.sons
    ensures OnGraph(Toggle(s, id, tree).next)
  {
    var s' := Toggle(s, id, tree).next;
    if id in s.closed {
      var added := ExpandEdges(tree, s.displayed);
      ParseAppend(s.lines, added);
      forall l | l in Parse(added)
        ensures InTree(Ends(Parse(s.backup)), l.a, l.b)
      {
        EndsOf(Parse(added), l);
        ExpandedPairsFromTree(tree, s.displayed, (l.a, l.b));
      }
    } else {
      forall l | l in Parse(s'.lines)
        ensures l in Parse(s.lines)
      {
        assert multiset(Parse(s'.lines))[l] > 0;
      }
    }
  }

  /** The pristine buffer's own pairs are graph edges. */
  lemma BackupOnGraph(buf: seq<int>)
    ensures forall l :: l in Parse(buf) ==> InTree(Ends(Parse(buf)), l.a, l.b)
  {
    forall l | l in Parse(buf)
      ensures InTree(Ends(Parse(buf)), l.a, l.b)
    {
      EndsOf(Parse(buf), l);
      assert Joins((l.a, l.b), l.a, l.b);
    }
  }

  /** A search puts on screen only pairs of the pristine buffer. */
  lemma SearchOnGraph(s: Session, low: real, high: real, keep: seq<int>)
    ensures OnGraph(Search(s, low, high, keep))
  {
    var s' := Search(s, low, high, keep);
    forall l | l in Parse(s'.lines)
      ensures InTree(Ends(Parse(s.backup)), l.a, l.b)
    {
      EndsOf(Parse(s'.lines), l);
      RebuiltPairsFromBackup(s.backup, keep, (l.a, l.b));
      assert Joins((l.a, l.b), l.a, l.b);
    }
  }
}

=== FILE: edge_buffer.dfy ===
/** The flat line buffer `[2, a, b, 2, c, d, …]` the page hands to the mesh,
    and the three ways the page rewrites it: the collapse filter, the expand
    append and the range rebuild. Every scan mirrors the source's
    `index % 3 === 0` walk: a trailing partial triplet reads `undefined`
    endpoints, which no id list includes, so each filter drops it. */
module EdgeBuffer {
  import opened Seqs

  /** One triplet of the buffer: the legacy count prefix and two endpoint ids. */
  datatype Line = Line(count: int, a: int, b: int)

  /** A tree edge as the graph's breadth-first search reports it. */
  type TreeEdge = (int, int)

  predicate Aligned(buf: seq<int>)
  {
    |buf| % 3 == 0
  }

  /** The complete triplets of a buffer, in order. */
  function Parse(buf: seq<int>): (ls: seq<Line>)
    ensures |ls| == |buf| / 3
    ensures forall t :: 0 <= t < |ls| ==> ls[t] == Line(buf[3 * t], buf[3 * t + 1], buf[3 * t + 2])
    decreases |buf|
  {
    if |buf| < 3 then [] else [Line(buf[0], buf[1], buf[2])] + Parse(buf[3..])
  }

  /** Writes triplets back out as a flat buffer. */
  function Flatten(ls: seq<Line>): (buf: seq<int>)
    ensures |buf| == 3 * |ls|
  {
    if |ls| == 0 then [] else [ls[0].count, ls[0].a, ls[0].b] + Flatten(ls[1..])
  }

  lemma ParseCons(c: int, a: int, b: int, rest: seq<int>)
    ensures Parse([c, a, b] + rest) == [Line(c, a, b)] + Parse(rest)
  {
    assert ([c, a, b] + rest)[3..] == rest;
  }

  lemma {:induction false} ParseAppend(xs: seq<int>, ys: seq<int>)
    requires Aligned(xs)
    ensures Parse(xs + ys) == Parse(xs) + Parse(ys)
    decreases |xs|
  {
    if |xs| > 0 {
      assert xs + ys == [xs[0], xs[1], xs[2]] + (xs[3..] + ys);
      assert xs == [xs[0], xs[1], xs[2]] + xs[3..];
      ParseCons(xs[0], xs[1], xs[2], xs[3..] + ys);
      ParseCons(xs[0], xs[1], xs[2], xs[3..]);
      ParseAppend(xs[3..], ys);
    }
  }

  /** Flattening and re-parsing gives back the same triplets. */
  lemma {:induction false} ParseFlatten(ls: seq<Line>)
    ensures Parse(Flatten(ls)) == ls
  {
    if |ls| > 0 {
      ParseCons(ls[0].count, ls[0].a, ls[0].b, Flatten(ls[1..]));
      ParseFlatten(ls[1..]);
    }
  }

  /** An aligned buffer is exactly the flattening of its triplets. */
  lemma {:induction false} FlattenParse(buf: seq<int>)
    requires Aligned(buf)
    ensures Flatten(Parse(buf)) == buf
    decreases |buf|
  {
    if |buf| > 0 {
      FlattenParse(buf[3..]);
      assert buf == [buf[0], buf[1], buf[2]] + buf[3..];
    }
  }

  /** The endpoint pairs of a run of triplets, prefixes dropped. */
  function Ends(ls: seq<Line>): (es: seq<TreeEdge>)
    ensures |es| == |ls|
    ensures forall t :: 0 <= t < |ls| ==> es[t] == (ls[t].a, ls[t].b)
  {
    if |ls| == 0 then [] else [(ls[0].a, ls[0].b)] + Ends(ls[1..])
  }

  /** `e` connects `a` and `b` in one orientation or the other. */
  predicate Joins(e: TreeEdge, a: int, b: int)
  {
    (e.0 == a && e.1 == b) || (e.1 == a && e.0 == b)
  }

  /** Some edge of the list connects `a` and `b` (the source's `tree.some(…)`). */
  predicate InTree(tree: seq<TreeEdge>, a: int, b: int)
  {
    exists e :: e in tree && Joins(e, a, b)
  }

  lemma InTreeSymmetric(tree: seq<TreeEdge>, a: int, b: int)
    ensures InTree(tree, a, b) <==> InTree(tree, b, a)
  {
    if InTree(tree, a, b) {
      var e :| e in tree && Joins(e, a, b);
      assert Joins(e, b, a);
    }
    if InTree(tree, b, a) {
      var e :| e in tree && Joins(e, b, a);
      assert Joins(e, a, b);
    }
  }

  lemma InTreeAppend(xs: seq<TreeEdge>, ys: seq<TreeEdge>, a: int, b: int)
    ensures InTree(xs + ys, a, b) <==> InTree(xs, a, b) || InTree(ys, a, b)
  {
    if InTree(xs + ys, a, b) {
      var e :| e in xs + ys && Joins(e, a, b);
      assert e in xs || e in ys;
    }
    if InTree(xs, a, b) {
      var e :| e in xs && Joins(e, a, b);
      assert e in xs + ys;
    }
    if InTree(ys, a, b) {
      var e :| e in ys && Joins(e, a, b);
      assert e in xs + ys;
    }
  }

  lemma EndsAppend(xs: seq<Line>, ys: seq<Line>)
    ensures Ends(xs + ys) == Ends(xs) + Ends(ys)
  {
  }

  /** The collapse keeps a triplet iff its pair is no tree edge and both of
      its endpoints are displayed. */
  predicate Survives(l: Line, tree: seq<TreeEdge>, shown: seq<int>)
  {
    !InTree(tree, l.a, l.b) && l.a in shown && l.b in shown
  }

  /** Collapse: the buffer without the subtree's edges and without any
      triplet that touches an undisplayed id. */
  function CollapseFilter(buf: seq<int>, tree: seq<TreeEdge>, shown: seq<int>): (r: seq<int>)
    ensures Aligned(r)
    ensures SubSeq(Parse(r), Parse(buf))
    ensures forall l :: multiset(Parse(r))[l] == if Survives(l, tree, shown) then multiset(Parse(buf))[l] else 0
    decreases |buf|
  {
    if |buf| < 3 then []
    else
      var l := Line(buf[0], buf[1], buf[2]);
      var rest := CollapseFilter(buf[3..], tree, shown);
      assert Parse(buf) == [l] + Parse(buf[3..]);
      if Survives(l, tree, shown) then
        ParseCons(buf[0], buf[1], buf[2], rest);
        SubSeqCons(l, Parse(rest), Parse(buf[3..]));
        [buf[0], buf[1], buf[2]] + rest
      else
        SubSeqSkip(l, Parse(rest), Parse(buf[3..]));
        rest
  }

  /** Putting one triplet in front of a buffer puts its line in front of the
      parsed lines and its pair in front of their endpoint pairs. */
  lemma PrependLine(c: int, u: int, v: int, rest: seq<int>)
    ensures Parse([c, u, v] + rest) == [Line(c, u, v)] + Parse(rest)
    ensures Ends(Parse([c, u, v] + rest)) == [(u, v)] + Ends(Parse(rest))
  {
    ParseCons(c, u, v, rest);
    assert ([Line(c, u, v)] + Parse(rest))[1..] == Parse(rest);
  }

  /** Both endpoints of `e` are in `ids`. */
  predicate Within(e: TreeEdge, ids: seq<int>)
  {
    e.0 in ids && e.1 in ids
  }

  /** The multiset step of an order-preserving filter on endpoint pairs:
      looking at one more source pair `e` keeps the counts right whether `e`
      is emitted or skipped. */
  lemma WithinCountStep(e: TreeEdge, out: seq<TreeEdge>, src: seq<TreeEdge>, ids: seq<int>)
    requires forall x :: multiset(out)[x] == if Within(x, ids) then multiset(src)[x] else 0
    ensures Within(e, ids) ==>
      forall x :: multiset([e] + out)[x] == if Within(x, ids) then multiset([e] + src)[x] else 0
    ensures !Within(e, ids) ==>
      forall x :: multiset(out)[x] == if Within(x, ids) then multiset([e] + src)[x] else 0
  {
    assert multiset([e] + out) == multiset{e} + multiset(out);
    assert multiset([e] + src) == multiset{e} + multiset(src);
  }

  /** Expand: a fresh triplet `(2, u, v)` for every tree edge `(u, v)`
      whose endpoints are both displayed, in tree order. */
  function ExpandEdges(tree: seq<TreeEdge>, shown: seq<int>): (r: seq<int>)
    ensures Aligned(r)
    ensures forall l :: l in Parse(r) ==> l.count == 2
    ensures SubSeq(Ends(Parse(r)), tree)
    ensures forall e :: multiset(Ends(Parse(r)))[e] == if Within(e, shown) then multiset(tree)[e] else 0
  {
    if |tree| == 0 then []
    else
      var e := tree[0];
      var rest := ExpandEdges(tree[1..], shown);
      assert tree == [e] + tree[1..];
      WithinCountStep(e, Ends(Parse(rest)), tree[1..], shown);
      if Within(e, shown) then
        PrependLine(2, e.0, e.1, rest);
        SubSeqCons(e, Ends(Parse(rest)), tree[1..]);
        [2, e.0, e.1] + rest
      else
        SubSeqSkip(e, Ends(Parse(rest)), tree[1..]);
        rest
  }

  /** Range rebuild: from the pristine buffer, a `(2, a, b)` for every
      triplet whose endpoints are both kept, in buffer order. */
  function RangeRebuild(backup: seq<int>, keep: seq<int>): (r: seq<int>)
    ensures Aligned(r)
    ensures forall l :: l in Parse(r) ==> l.count == 2 && l.a in keep && l.b in keep
    ensures SubSeq(Ends(Parse(r)), Ends(Parse(backup)))
    ensures forall e :: multiset(Ends(Parse(r)))[e] == if Within(e, keep) then multiset(Ends(Parse(backup)))[e] else 0
    decreases |backup|
  {
    if |backup| < 3 then []
    else
      var e := (backup[1], backup[2]);
      var rest := RangeRebuild(backup[3..], keep);
      assert backup == [backup[0], backup[1], backup[2]] + backup[3..];
      PrependLine(backup[0], backup[1], backup[2], backup[3..]);
      WithinCountStep(e, Ends(Parse(rest)), Ends(Parse(backup[3..])), keep);
      if Within(e, keep) then
        PrependLine(2, backup[1], backup[2], rest);
        SubSeqCons(e, Ends(Parse(rest)), Ends(Parse(backup[3..])));
        [2, backup[1], backup[2]] + rest
      else
        SubSeqSkip(e, Ends(Parse(rest)), Ends(Parse(backup[3..])));
        rest
  }

  /** Every pair of the range rebuild is a pair of the pristine buffer
      with both ids kept. */
  lemma RebuiltPairsFromBackup(backup: seq<int>, keep: seq<int>, e: TreeEdge)
    requires e in Ends(Parse(RangeRebuild(backup, keep)))
    ensures e in Ends(Parse(backup)) && Within(e, keep)
  {
    var ends := Ends(Parse(RangeRebuild(backup, keep)));
    assert multiset(ends)[e] == if Within(e, keep) then multiset(Ends(Parse(backup)))[e] else 0;
    assert multiset(ends)[e] > 0;
  }

  /** Every pair of the expand append is a tree edge with both ids
      displayed. */
  lemma ExpandedPairsFromTree(tree: seq<TreeEdge>, shown: seq<int>, e: TreeEdge)
    requires e in Ends(Parse(ExpandEdges(tree, shown)))
    ensures e in tree && Within(e, shown)
  {
    var ends := Ends(Parse(ExpandEdges(tree, shown)));
    assert multiset(ends)[e] == if Within(e, shown) then multiset(tree)[e] else 0;
    assert multiset(ends)[e] > 0;
  }

  /** A triplet's endpoint pair is among the buffer's pairs. */
  lemma EndsOf(ls: seq<Line>, l: Line)
    requires l in ls
    ensures (l.a, l.b) in Ends(ls)
  {
    var t :| 0 <= t < |ls| && ls[t] == l;
    assert Ends(ls)[t] == (l.a, l.b);
  }

  /** Every endpoint pair comes from some triplet. */
  lemma LineOf(ls: seq<Line>, e: TreeEdge) returns (l: Line)
    requires e in Ends(ls)
    ensures l in ls && (l.a, l.b) == e
  {
    var t :| 0 <= t < |ls| && Ends(ls)[t] == e;
    l := ls[t];
  }

  lemma CollapsedEdgesOnlyOld(buf: seq<int>, tree: seq<TreeEdge>, shown: seq<int>, a: int, b: int)
    requires InTree(Ends(Parse(CollapseFilter(buf, tree, shown))), a, b)
    ensures InTree(Ends(Parse(buf)), a, b) && !InTree(tree, a, b)
  {
    var p, p1 := Parse(buf), Parse(CollapseFilter(buf, tree, shown));
    var e :| e in Ends(p1) && Joins(e, a, b);
    var l := LineOf(p1, e);
    assert multiset(p1)[l] == if Survives(l, tree, shown) then multiset(p)[l] else 0;
    assert multiset(p1)[l] > 0;
    assert l in p;
    EndsOf(p, l);
    InTreeSymmetric(tree, a, b);
  }

  lemma CollapsedEdgesKeepOld(buf: seq<int>, tree: seq<TreeEdge>, shown: seq<int>, a: int, b: int)
    requires forall l :: l in Parse(buf) ==> l.a in shown && l.b in shown
    requires InTree(Ends(Parse(buf)), a, b) && !InTree(tree, a, b)
    ensures InTree(Ends(Parse(CollapseFilter(buf, tree, shown))), a, b)
  {
    var p, p1 := Parse(buf), Parse(CollapseFilter(buf, tree, shown));
    var e :| e in Ends(p) && Joins(e, a, b);
    var l := LineOf(p, e);
    InTreeSymmetric(tree, a, b);
    assert Survives(l, tree, shown);
    assert multiset(p1)[l] == multiset(p)[l];
    assert l in p1;
    EndsOf(p1, l);
  }

  /** After the collapse filter, on a buffer whose endpoints are all
      displayed, `a` and `b` are joined iff they were joined before and no
      tree edge joins them. */
  lemma CollapsedEdges(buf: seq<int>, tree: seq<TreeEdge>, shown: seq<int>, a: int, b: int)
    requires forall l :: l in Parse(buf) ==> l.a in shown && l.b in shown
    ensures InTree(Ends(Parse(CollapseFilter(buf, tree, shown))), a, b)
        <==> InTree(Ends(Parse(buf)), a, b) && !InTree(tree, a, b)
  {
    if InTree(Ends(Parse(CollapseFilter(buf, tree, shown))), a, b) {
      CollapsedEdgesOnlyOld(buf, tree, shown, a, b);
    }
    if InTree(Ends(Parse(buf)), a, b) && !InTree(tree, a, b) {
      CollapsedEdgesKeepOld(buf, tree, shown, a, b);
    }
  }

  lemma ExpandedEdgesFromTree(tree: seq<TreeEdge>, shown: seq<int>, a: int, b: int)
    requires InTree(Ends(Parse(ExpandEdges(tree, shown))), a, b)
    ensures InTree(tree, a, b) && a in shown && b in shown
  {
    var ends := Ends(Parse(ExpandEdges(tree, shown)));
    var e :| e in ends && Joins(e, a, b);
    assert multiset(ends)[e] == if Within(e, shown) then multiset(tree)[e] else 0;
    assert multiset(ends)[e] > 0;
    assert e in tree;
  }

  lemma ExpandedEdgesCoverTree(tree: seq<TreeEdge>, shown: seq<int>, a: int, b: int)
    requires InTree(tree, a, b) && a in shown && b in shown
    ensures InTree(Ends(Parse(ExpandEdges(tree, shown))), a, b)
  {
    var ends := Ends(Parse(ExpandEdges(tree, shown)));
    var e :| e in tree && Joins(e, a, b);
    assert e.0 in shown && e.1 in shown;
    assert multiset(ends)[e] == multiset(tree)[e];
    assert e in ends;
  }

  /** The appended part of an expand joins `a` and `b` iff a tree edge joins
      them and both are displayed. */
  lemma ExpandedEdges(tree: seq<TreeEdge>, shown: seq<int>, a: int, b: int)
    ensures InTree(Ends(Parse(ExpandEdges(tree, shown))), a, b)
        <==> InTree(tree, a, b) && a in shown && b in shown
  {
    if InTree(Ends(Parse(ExpandEdges(tree, shown))), a, b) {
      ExpandedEdgesFromTree(tree, shown, a, b);
    }
    if InTree(tree, a, b) && a in shown && b in shown {
      ExpandedEdgesCoverTree(tree, shown, a, b);
    }
  }
}

=== FILE: graph.dfy ===
/** Load-time graph construction: decoding the mesh's line buffer into
    endpoint pairs, and `generateGraph`'s 0/1 adjacency matrix. */
module Graphs {
  import opened EdgeBuffer

  /** One element of the decoded edge list. A buffer whose length is 2 more
      than a multiple of 3 ends in a one-element edge `[v]`; its missing
      second endpoint is `undefined` and matches no matrix cell. */
  datatype Entry = Pair(a: int, b: int) | Lone(a: int)

  /** The graph object the page builds once: heights, adjacency matrix, and
      the two cached counts. */
  datatype Graph = Graph(heights: seq<real>, adj: seq<seq<int>>, nodeCount: int, edgeCount: int)

  /** Decodes the flat line buffer: the element at `index % 3 == 1` opens an
      edge, the one at `index % 3 == 2` closes it, and the count prefix at
      `index % 3 == 0` is skipped. */
  function Decode(buf: seq<int>): (es: seq<Entry>)
    ensures |es| == (|buf| + 1) / 3
    ensures forall t :: 0 <= t < |es| ==>
      es[t] == if 3 * t + 2 < |buf| then Pair(buf[3 * t + 1], buf[3 * t + 2]) else Lone(buf[3 * t + 1])
    decreases |buf|
  {
    if |buf| < 2 then []
    else if |buf| == 2 then [Lone(buf[1])]
    else [Pair(buf[1], buf[2])] + Decode(buf[3..])
  }

  /** The count prefixes never influence the decoded edges. */
  lemma {:induction false} DecodeIgnoresPrefix(b1: seq<int>, b2: seq<int>)
    requires |b1| == |b2|
    requires forall i :: 0 <= i < |b1| && i % 3 != 0 ==> b1[i] == b2[i]
    ensures Decode(b1) == Decode(b2)
    decreases |b1|
  {
    if |b1| >= 2 {
      assert b1[1] == b2[1];
    }
    if |b1| > 2 {
      assert b1[2] == b2[2];
      forall i | 0 <= i < |b1| - 3 && i % 3 != 0
        ensures b1[3..][i] == b2[3..][i]
      {
        assert (i + 3) % 3 == i % 3;
      }
      DecodeIgnoresPrefix(b1[3..], b2[3..]);
    }
  }

  /** On an aligned buffer the decoded edges are exactly the endpoint pairs
      of its triplets. */
  lemma DecodeAligned(buf: seq<int>)
    requires Aligned(buf)
    ensures |Decode(buf)| == |Parse(buf)|
    ensures forall t :: 0 <= t < |Parse(buf)| ==> Decode(buf)[t] == Pair(Parse(buf)[t].a, Parse(buf)[t].b)
  {
  }

  /** Edge `e` connects `i` and `j` in either orientation. */
  predicate Matches(e: Entry, i: int, j: int)
  {
    e.Pair? && ((e.a == i && e.b == j) || (e.b == i && e.a == j))
  }

  /** Some edge of the list connects `i` and `j`. */
  predicate Linked(edges: seq<Entry>, i: int, j: int)
  {
    exists k :: 0 <= k < |edges| && Matches(edges[k], i, j)
  }

  lemma LinkedSymmetric(edges: seq<Entry>, i: int, j: int)
    ensures Linked(edges, i, j) <==> Linked(edges, j, i)
  {
    if Linked(edges, i, j) {
      var k :| 0 <= k < |edges| && Matches(edges[k], i, j);
      assert Matches(edges[k], j, i);
    }
    if Linked(edges, j, i) {
      var k :| 0 <= k < |edges| && Matches(edges[k], j, i);
      assert Matches(edges[k], i, j);
    }
  }

  /** The matrix is square, of the given size, and symmetric. */
  predicate Symmetric(m: seq<seq<int>>, n: nat)
  {
    && |m| == n
    && (forall i :: 0 <= i < n ==> |m[i]| == n)
    && forall i, j :: 0 <= i < n && 0 <= j < n ==> m[i][j] == m[j][i]
  }

  /** `generateGraph`: cell `[i][j]` of the N×N matrix (N = number of
      heights) is 1 exactly when some edge joins `i` and `j`, else 0. */
  method GenerateGraph(edges: seq<Entry>, heights: seq<real>) returns (g: Graph)
    ensures g.heights == heights
    ensures g.nodeCount == |heights| && g.edgeCount == |edges|
    ensures |g.adj| == |heights|
    ensures forall i :: 0 <= i < |heights| ==> |g.adj[i]| == |heights|
    ensures forall i, j :: 0 <= i < |heights| && 0 <= j < |heights| ==>
      g.adj[i][j] == if Linked(edges, i, j) then 1 else 0
    ensures Symmetric(g.adj, |heights|)
  {
    var n := |heights|;
    var arr: seq<seq<int>> := [];
    var i := 0;
    while i < n
      invariant 0 <= i <= n
      invariant |arr| == i
      invariant forall r :: 0 <= r < i ==> |arr[r]| == n
      invariant forall r, c :: 0 <= r < i && 0 <= c < n ==> arr[r][c] == if Linked(edges, r, c) then 1 else 0
    {
      var row: seq<int> := [];
      var j := 0;
      while j < n
        invariant 0 <= j <= n
        invariant |row| == j
        invariant forall c :: 0 <= c < j ==> row[c] == if Linked(edges, i, c) then 1 else 0
      {
        var cell := 0;
        var k := 0;
        while k < |edges|
          invariant 0 <= k <= |edges|
          invariant cell == if exists q :: 0 <= q < k && Matches(edges[q], i, j) then 1 else 0
        {
          if Matches(edges[k], i, j) {
            cell := 1;
          }
          k := k + 1;
        }
        row := row + [cell];
        j := j + 1;
      }
      arr := arr + [row];
      i := i + 1;
    }
    forall r, c | 0 <= r < n && 0 <= c < n
      ensures arr[r][c] == arr[c][r]
    {
      LinkedSymmetric(edges, r, c);
    }
    g := Graph(heights, arr, n, |edges|);
  }

  /** The load step: the pristine buffer decoded and turned into the graph.
      On an aligned buffer, cell `[i][j]` is 1 exactly when some triplet of
      the buffer joins `i` and `j`. */
  method LoadGraph(buf: seq<int>, heights: seq<real>) returns (g: Graph)
    ensures g.nodeCount == |heights| && g.edgeCount == (|buf| + 1) / 3
    ensures Symmetric(g.adj, |heights|)
    ensures Aligned(buf) ==> forall i, j :: 0 <= i < |heights| && 0 <= j < |heights| ==>
      g.adj[i][j] == if InTree(Ends(Parse(buf)), i, j) then 1 else 0
  {
    var edges := Decode(buf);
    g := GenerateGraph(edges, heights);
    if Aligned(buf) {
      forall i, j | 0 <= i < |heights| && 0 <= j < |heights|
        ensures g.adj[i][j] == if InTree(Ends(Parse(buf)), i, j) then 1 else 0
      {
        LinkedIffInTree(buf, i, j);
      }
    }
  }

  lemma LinkedIffInTree(buf: seq<int>, i: int, j: int)
    requires Aligned(buf)
    ensures Linked(Decode(buf), i, j) <==> InTree(Ends(Parse(buf)), i, j)
  {
    DecodeAligned(buf);
    var edges, ends := Decode(buf), Ends(Parse(buf));
    if Linked(edges, i, j) {
      var k :| 0 <= k < |edges| && Matches(edges[k], i, j);
      assert ends[k] in ends && Joins(ends[k], i, j);
    }
    if InTree(ends, i, j) {
      var e :| e in ends && Joins(e, i, j);
      var k :| 0 <= k < |ends| && ends[k] == e;
      assert Matches(edges[k], i, j);
    }
  }
}

=== FILE: properties.dfy ===
/** Properties that relate several user actions: the collapse/expand round
    trip, the independence of search and reset from earlier clicks, and the
    invariant every reachable session keeps. */
module ControllerProperties {
  import opened Seqs
  import opened EdgeBuffer
  import opened Controller

  /** Clicking a node that is not collapsed collapses it; clicking it again
      takes the expand branch, restores the collapsed list exactly, recreates
      the displayed children whose markers the first click removed, and keeps
      the child list memoised by the first click. */
  lemma ToggleTwice(s: Session, id: int, tree: seq<TreeEdge>)
    requires id !in s.closed
    ensures var st1 := Toggle(s, id, tree);
      && st1.next.closed == s.closed + [id]
      && id in st1.next.sons
      && st1.removed == st1.next.sons[id]
      && var st2 := Toggle(st1.next, id, tree);
      && st2.next.closed == s.closed
      && st2.next.sons == st1.next.sons
      && st2.next.displayed == s.displayed
      && st2.created == KeepIn(st1.removed, s.displayed)
  {
    var s1 := Toggle(s, id, tree).next;
    assert id in s1.closed;
    RemoveSnoc(s.closed, id);
    RemoveAbsent(s.closed, id);
  }

  /** A collapse followed by an expand of the same node, starting from a
      buffer whose endpoints are all displayed: two ids are joined afterwards
      iff they were joined before and no tree edge joins them, or a tree edge
      joins them and both are displayed. */
  lemma ToggleTwiceEdges(s: Session, id: int, tree: seq<TreeEdge>, a: int, b: int)
    requires id !in s.closed
    requires forall l :: l in Parse(s.lines) ==> l.a in s.displayed && l.b in s.displayed
    ensures var s2 := Toggle(Toggle(s, id, tree).next, id, tree).next;
      InTree(Ends(Parse(s2.lines)), a, b) <==>
        || (InTree(Ends(Parse(s.lines)), a, b) && !InTree(tree, a, b))
        || (InTree(tree, a, b) && a in s.displayed && b in s.displayed)
  {
    var s1 := Toggle(s, id, tree).next;
    assert id in s1.closed;
    var s2 := Toggle(s1, id, tree).next;
    var kept, added := CollapseFilter(s.lines, tree, s.displayed), ExpandEdges(tree, s.displayed);
    assert s2.lines == kept + added;
    ParseAppend(kept, added);
    EndsAppend(Parse(kept), Parse(added));
    InTreeAppend(Ends(Parse(kept)), Ends(Parse(added)), a, b);
    CollapsedEdges(s.lines, tree, s.displayed, a, b);
    ExpandedEdges(tree, s.displayed, a, b);
  }

  /** When every displayed tree edge was on screen before the collapse, the
      expand brings back exactly the edges the collapse hid: the set of
      joined pairs is the same as before (the triplet order is not). */
  lemma ToggleTwiceRestoresEdges(s: Session, id: int, tree: seq<TreeEdge>)
    requires id !in s.closed
    requires forall l :: l in Parse(s.lines) ==> l.a in s.displayed && l.b in s.displayed
    requires forall a, b :: InTree(tree, a, b) && a in s.displayed && b in s.displayed ==> InTree(Ends(Parse(s.lines)), a, b)
    ensures var s2 := Toggle(Toggle(s, id, tree).next, id, tree).next;
      forall a, b :: InTree(Ends(Parse(s2.lines)), a, b) <==> InTree(Ends(Parse(s.lines)), a, b)
  {
    var s2 := Toggle(Toggle(s, id, tree).next, id, tree).next;
    forall a, b
      ensures InTree(Ends(Parse(s2.lines)), a, b) <==> InTree(Ends(Parse(s.lines)), a, b)
    {
      ToggleTwiceEdges(s, id, tree, a, b);
      if InTree(Ends(Parse(s.lines)), a, b) {
        var e :| e in Ends(Parse(s.lines)) && Joins(e, a, b);
        var l := LineOf(Parse(s.lines), e);
      }
    }
  }

  /** The loaded session is consistent when the loaded buffer is. */
  lemma InitialConsistent(heights: seq<real>, buf: seq<int>)
    requires Wired(buf, |heights|)
    ensures Consistent(Initial(heights, buf))
  {
    BackupOnGraph(buf);
  }

  /** Whatever was loaded and whatever the user does afterwards, every
      collapsed root has a memoised child list, so an expand never reads a
      missing one. */
  lemma ReachableMemoised(heights: seq<real>, buf: seq<int>, es: seq<Event>)
    ensures forall id :: id in Run(Initial(heights, buf), es).closed ==> id in Run(Initial(heights, buf), es).sons
  {
  }

  /** After a well-formed load, whatever the user does, the session stays
      consistent. */
  lemma ReachableConsistent(heights: seq<real>, buf: seq<int>, es: seq<Event>)
    requires Wired(buf, |heights|)
    requires forall k :: 0 <= k < |es| ==> Grounded(es[k], buf)
    ensures Consistent(Run(Initial(heights, buf), es))
  {
    InitialConsistent(heights, buf);
  }

  /** A search reads the pristine buffer, so earlier clicks do not change
      the buffer, the displayed list or the (empty) collapsed list it
      produces. */
  lemma {:induction false} SearchIgnoresHistory(s: Session, es: seq<Event>, low: real, high: real, keep: seq<int>)
    requires Memoised(s)
    ensures var before, after := Search(s, low, high, keep), Search(Run(s, es), low, high, keep);
      && after.lines == before.lines
      && after.displayed == before.displayed
      && after.closed == before.closed == []
  {
  }

  /** Reset is idempotent. */
  lemma ResetIdempotent(s: Session)
    ensures Reset(Reset(s)) == Reset(s)
  {
  }

  /** Reset forgets every earlier click: it gives the session the page had
      right after loading. */
  lemma {:induction false} ResetForgetsHistory(s: Session, es: seq<Event>)
    requires Memoised(s)
    ensures Reset(Run(s, es)) == Reset(s) == Initial(s.heights, s.backup)
  {
  }
}

=== FILE: seqs.dfy ===
/** Generic facts about sequences used by the edge-buffer and session models:
    order-preserving subsequences, first-occurrence indices, and the two
    order-preserving filters the page applies to its id lists. */
module Seqs {

  /** `xs` is obtained from `ys` by deleting elements; the order of what is
      left is unchanged. */
  predicate SubSeq<T(==)>(xs: seq<T>, ys: seq<T>)
    decreases |ys|
  {
    if |xs| == 0 then true
    else if |ys| == 0 then false
    else (xs[0] == ys[0] && SubSeq(xs[1..], ys[1..])) || SubSeq(xs, ys[1..])
  }

  lemma SubSeqCons<T>(x: T, xs: seq<T>, ys: seq<T>)
    requires SubSeq(xs, ys)
    ensures SubSeq([x] + xs, [x] + ys)
  {
    assert ([x] + xs)[1..] == xs;
    assert ([x] + ys)[1..] == ys;
  }

  lemma SubSeqSkip<T>(y: T, xs: seq<T>, ys: seq<T>)
    requires SubSeq(xs, ys)
    ensures SubSeq(xs, [y] + ys)
  {
    assert ([y] + ys)[1..] == ys;
  }

  /** Index of the first occurrence of `x` in `xs` (JavaScript `indexOf` on a
      list known to hold `x`). */
  function IndexOf<T(==)>(xs: seq<T>, x: T): (k: nat)
    requires x in xs
    ensures k < |xs| && xs[k] == x
    ensures forall i :: 0 <= i < k ==> xs[i] != x
  {
    if xs[0] == x then 0 else 1 + IndexOf(xs[1..], x)
  }

  /** Appending to a list does not move the first occurrence of an element
      it already held. */
  lemma {:induction false} IndexOfSnoc<T>(xs: seq<T>, y: T, x: T)
    requires x in xs
    ensures IndexOf(xs + [y], x) == IndexOf(xs, x)
  {
    if xs[0] != x {
      assert (xs + [y])[1..] == xs[1..] + [y];
      IndexOfSnoc(xs[1..], y, x);
    }
  }

  /** An element appended to a list that lacked it first occurs at the end. */
  lemma IndexOfNew<T>(xs: seq<T>, x: T)
    requires x !in xs
    ensures IndexOf(xs + [x], x) == |xs|
  {
  }

  /** No element occurs twice. */
  predicate Distinct<T(==)>(xs: seq<T>)
  {
    forall i, j :: 0 <= i < j < |xs| ==> xs[i] != xs[j]
  }

  /** The distinct elements of `xs` other than `skip`, each at the place of
      its first occurrence: the accumulator the page builds with
      `acc.indexOf(v) < 0 && v !== id` before pushing `v`. */
  function FirstOccurrences<T(==,!new)>(xs: seq<T>, skip: T): (r: seq<T>)
    ensures Distinct(r)
    ensures forall x :: x in r <==> x in xs && x != skip
    ensures forall i, j :: 0 <= i < j < |r| ==> IndexOf(xs, r[i]) < IndexOf(xs, r[j])
    decreases |xs|
  {
    if |xs| == 0 then []
    else
      var init, x := xs[..|xs| - 1], xs[|xs| - 1];
      assert xs == init + [x];
      var prev := FirstOccurrences(init, skip);
      FirstOccurrencesStep(init, x, prev);
      if x in prev || x == skip then prev else prev + [x]
  }

  /** The first-occurrence indices of the earlier elements survive the
      append, and a new element lands after all of them. */
  lemma FirstOccurrencesStep<T>(init: seq<T>, x: T, prev: seq<T>)
    requires forall y :: y in prev ==> y in init
    requires forall i, j :: 0 <= i < j < |prev| ==> IndexOf(init, prev[i]) < IndexOf(init, prev[j])
    ensures forall i :: 0 <= i < |prev| ==> IndexOf(init + [x], prev[i]) == IndexOf(init, prev[i])
    ensures forall i, j :: 0 <= i < j < |prev| ==> IndexOf(init + [x], prev[i]) < IndexOf(init + [x], prev[j])
    ensures x !in init ==> IndexOf(init + [x], x) == |init|
  {
    forall i | 0 <= i < |prev|
      ensures IndexOf(init + [x], prev[i]) == IndexOf(init, prev[i])
    {
      assert prev[i] in prev;
      IndexOfSnoc(init, x, prev[i]);
    }
    if x !in init {
      IndexOfNew(init, x);
    }
  }

  /** `xs` with every occurrence of `x` removed, the rest in order
      (`list.filter((i) => i !== x)`). */
  function Remove<T(==)>(xs: seq<T>, x: T): (r: seq<T>)
    ensures x !in r
    ensures SubSeq(r, xs)
    ensures multiset(r) == multiset(xs)[x := 0]
  {
    if |xs| == 0 then []
    else
      var rest := Remove(xs[1..], x);
      assert xs == [xs[0]] + xs[1..];
      if xs[0] == x then
        SubSeqSkip(xs[0], rest, xs[1..]);
        rest
      else
        SubSeqCons(xs[0], rest, xs[1..]);
        [xs[0]] + rest
  }

  /** The elements of `xs` that also occur in `ys`, in the order of `xs`
      (`xs.forEach((i) => { if (ys.includes(i)) … })`). */
  function KeepIn<T(==,!new)>(xs: seq<T>, ys: seq<T>): (r: seq<T>)
    ensures SubSeq(r, xs)
    ensures forall x :: multiset(r)[x] == if x in ys then multiset(xs)[x] else 0
  {
    if |xs| == 0 then []
    else
      var rest := KeepIn(xs[1..], ys);
      assert xs == [xs[0]] + xs[1..];
      if xs[0] in ys then
        SubSeqCons(xs[0], rest, xs[1..]);
        [xs[0]] + rest
      else
        SubSeqSkip(xs[0], rest, xs[1..]);
        rest
  }

  /** Removing an element that does not occur changes nothing. */
  lemma {:induction false} RemoveAbsent<T>(xs: seq<T>, x: T)
    requires x !in xs
    ensures Remove(xs, x) == xs
  {
    if |xs| > 0 {
      RemoveAbsent(xs[1..], x);
      assert xs == [xs[0]] + xs[1..];
    }
  }

  /** Removing `x` also removes a trailing copy of it. */
  lemma {:induction false} RemoveSnoc<T>(xs: seq<T>, x: T)
    ensures Remove(xs + [x], x) == Remove(xs, x)
  {
    if |xs| > 0 {
      assert (xs + [x])[1..] == xs[1..] + [x];
      RemoveSnoc(xs[1..], x);
    } else {
      assert [x][1..] == [];
    }
  }
}
